=== FILE: README.md ===
# Junction tag construction, modelled in Dafny

This project models how the Junction browser analytics SDK (`sdk/junction.js`)
turns a snapshot of the browser environment into the ordered list of
`(name, value)` tags sent for each tracked event. It covers two steps:

- **`#getClientInfo`** collects the client-info attribute list:
  - the page url, with the fragment handling and canonical-link preference;
  - the page path, title and referrer;
  - the browser, OS and device classifications of the user agent;
  - the screen size;
  - the optional connection type;
  - the timezone, with its whole-hour offset fallback;
  - the Arweave, Ethereum and Solana wallet attributes with their `-con`
    connection markers.
- **`track`** builds a fixed head of seven tags, then appends the client-info
  list with the `j-*` page fields filtered out:
  - action;
  - event name;
  - rewritten timestamp;
  - page;
  - capitalised browser plus OS;
  - country looked up from the timezone;
  - load time.

The browser environment is one immutable record, `Collector.Env`. What
`#getClientInfo` reads from `window`, `document` and `navigator` is a field of
it, and each awaited wallet probe is its outcome as data. What `track` reads
itself is separate: `pageVisited` comes from the same record's path, while the
`performance.timing` result and the clock's ISO string are parameters of
`Track.Tags`.

Modules, in dependency order:

| module | file | contents |
|---|---|---|
| `Wrappers` | wrappers.dfy | `Option` |
| `Text` | text.dfy | `String.prototype.includes` as `Contains`; ASCII case folding for the `/i` tests; decimal rendering of integers in template literals, with its inverse |
| `Attrs` | attrs.dfy | the `{name, value}` attribute; `Array.prototype.find` by name; `filter` by a name list (`Drop`) and its laws |
| `UserAgent` | useragent.dfy | the three first-match classifiers |
| `PageUrl` | pageurl.dfy | `href.replace(/#.*$/, '')` and the url choice |
| `Timezone` | timezone.dfy | the offset fallback label and the zone-to-country table |
| `Collector` | collector.dfy | `#getClientInfo` |
| `Track` | track.dfy | `track`'s tag list |

Behaviour the model keeps exactly as the code has it:

- An iPhone user agent says "like Mac OS X", so it is classified as "Mac". "iOS"
  is reachable only for user agents that never contain "Mac"
  (`UserAgent.MacShadowsIos`).
- `/#.*$/` has no `m` flag. Its `.` does not match a line terminator (`\n`,
  `\r`, U+2028, U+2029), and `$` only matches at the end of the string. So the
  cut is at the first `#` that has no line terminator after it. "The result
  has no `#`" is therefore proved only for hrefs without line terminators.
- The filter removes `j-path`, `j-title`, `j-referrer` and `j-lt`
  (sdk/junction.js:187). The collector never emits `j-lt`, so in effect the
  first three go. The load-time head tag is called `lt`, which the filter does
  not name, and nothing in the client-info list has that name.
- With timing data, the load time is the `toFixed(1)` rendering with no unit.
  Without it, the load time is the literal `'0.0s'`. The model keeps that
  asymmetry: the computed value is an opaque string and the fallback is
  `"0.0s"`.
- `track` accepts a payload and never reads it (`Track.PayloadIgnored`).

## Model

| member | source | states |
|---|---|---|
| Text.ContainsIffOccurs | sdk/junction.js:71-93 | `ua.includes(t)` holds exactly when `t` occurs at some position of `ua`, the reading every classifier test relies on |
| Text.ContainsImpliesIgnoreCase | sdk/junction.js:99-101 | a token the user agent contains verbatim is also found by the case-insensitive `/…/i` test |
| Text.NatToString | sdk/junction.js:107 | `${n}` for a screen dimension is a non-empty digit string without a leading zero, one digit exactly for n < 10 |
| Text.ParseNatToString | sdk/junction.js:107 | the decimal rendering reads back to the number it came from |
| Text.NatToStringInjective | sdk/junction.js:107 | two numbers with the same rendering are equal |
| Text.IntToString | sdk/junction.js:123-124 | a rendered integer is non-empty and starts with '-' exactly when it is negative |
| Text.ParseIntToString | sdk/junction.js:123-124 | signed rendering reads back to the integer it came from |
| Attrs.Find | sdk/junction.js:196-197 | `find(...)?.value` comes back empty exactly when no attribute carries the name |
| Attrs.FindFirst | sdk/junction.js:196-197 | `find` by name answers nothing exactly when no attribute has the name, and otherwise the value at the first index that has it |
| Attrs.FirstNamed | sdk/junction.js:196-197 | `find` by name: the index returned holds the name and no earlier index does; no index means no attribute has the name |
| Attrs.FindAppend | sdk/junction.js:196-197 | `find` on a concatenation answers from the first part when it has the name, otherwise from the second |
| Attrs.Drop | sdk/junction.js:186-188 | the filter never lengthens the list and leaves no attribute with a filtered name |
| Attrs.DropMembers | sdk/junction.js:186-188 | an attribute survives the filter exactly when it was in the list and its name is not filtered |
| Attrs.DropAppend | sdk/junction.js:186-188 | the filter keeps relative order: filtering a concatenation concatenates the filtered parts |
| Attrs.DropCounts | sdk/junction.js:186-188 | after the filter a filtered name occurs zero times and every other name as often as before |
| Attrs.DropNoneNamed | sdk/junction.js:186-188 | a list with no filtered name is left unchanged |
| UserAgent.Browser | sdk/junction.js:69-80 | the browser label is one of five, and each label is characterised by exactly the substring conditions under which the first-match chain yields it |
| UserAgent.Os | sdk/junction.js:83-95 | the OS label is one of six, each characterised by the precedence Windows, Mac, iPhone/iPad, Android, Linux |
| UserAgent.Device | sdk/junction.js:98-104 | "mobile" exactly when a mobile token matches case-insensitively, "tablet" exactly when only a tablet token does, else "desktop" |
| UserAgent.BraveBeatsChrome | sdk/junction.js:71-74 | a user agent naming both Chrome and Brave is "brave", never "chrome" |
| UserAgent.EdgeIsOthers | sdk/junction.js:70-79 | Chrome plus "Edg/" without Brave or Firefox falls through every rule to "others" |
| UserAgent.MacShadowsIos | sdk/junction.js:86-89 | any user agent containing "Mac" is never "iOS", and is "Mac" unless it names Windows |
| UserAgent.AndroidBeatsLinux | sdk/junction.js:84-93 | a user agent naming Android and Linux but none of Windows, Mac, iPhone and iPad is "Android", never "Linux" |
| UserAgent.MobileTokenWins | sdk/junction.js:99-102 | an exact mobile token makes the device "mobile" even when a tablet token is present |
| UserAgent.DeviceIgnoresCase | sdk/junction.js:99-101 | ASCII upper-casing of the user agent does not change the device class (JavaScript's full `toUpperCase()` could: "Mobıle" becomes "MOBILE") |
| PageUrl.FragmentStart | sdk/junction.js:60 | the position found is a '#' with no line terminator after it and no earlier position qualifies; none found means no position qualifies |
| PageUrl.StripFragment | sdk/junction.js:60 | the stripped href is a prefix of the href, and is either all of it or ends where a '#' starts a line-terminator-free tail |
| PageUrl.SelectUrl | sdk/junction.js:58-61 | a non-empty canonical href wins; otherwise the full href with hash tracking on, or the stripped href with it off |
| PageUrl.StripFragmentIdempotent | sdk/junction.js:60 | stripping twice equals stripping once |
| PageUrl.StripFragmentAtFirstHash | sdk/junction.js:60 | for a single-line href the result has no '#', and a href with a '#' is cut exactly at its first '#' |
| Timezone.OffsetLabel | sdk/junction.js:119-125 | the fallback label starts "UTC", then '-' exactly for a positive offset (west of UTC) and '+' exactly for a non-positive one |
| Timezone.OffsetLabelRoundTrip | sdk/junction.js:122-124 | the fallback label reads back to the offset it was built from |
| Timezone.OffsetLabelInjective | sdk/junction.js:122-124 | distinct whole-hour offsets get distinct labels |
| Timezone.Country | sdk/junction.js:211-252 | a listed zone maps to its country; "Unknown" exactly for a missing or unlisted zone; never empty |
| Collector.ScreenLabel | sdk/junction.js:107 | the screen label is the width's rendering, a single 'x', then the height's rendering: exactly as long as the two renderings plus one, with 'x' only between them and digits elsewhere |
| Collector.ScreenLabelRoundTrip | sdk/junction.js:107 | the `WxH` screen label determines both dimensions |
| Collector.ConnectionAttrs | sdk/junction.js:108-110 | the connection part holds only `connection` attributes |
| Collector.ZoneOf | sdk/junction.js:113-126 | no `tz` value exactly when the zone name is empty; a non-empty zone name is emitted as is; a throwing lookup emits the offset label |
| Collector.FailedZoneKeepsOffset | sdk/junction.js:118-125 | the fallback `tz` value reads back to the offset it was built from |
| Collector.TimezoneAttrs | sdk/junction.js:113-126 | the timezone part holds only `tz` attributes |
| Collector.ArweaveAttrs | sdk/junction.js:129-138 | nothing without a wallet; otherwise `ar` first, valued `walletName` or "ArConnect" when that is falsy, then `ar-con` = "1" exactly when the address probe returned a truthy address |
| Collector.EthereumAttrs | sdk/junction.js:140-153 | nothing without a provider; otherwise `eth` with the brand first, then `eth-con` = "1" and `eth-chain` = the chain id, both exactly when `selectedAddress` is truthy |
| Collector.SolanaAttrs | sdk/junction.js:155-174 | nothing without a provider; otherwise `sol` with the brand first, then `sol-con` = "1" exactly when `publicKey` is truthy |
| Collector.EthereumBrand | sdk/junction.js:141-146 | "BraveWallet-ETH" exactly when the Brave flag is set, "MetaMask" exactly when only the MetaMask flag is, "unknown" exactly when neither is |
| Collector.SolanaBrand | sdk/junction.js:156-167 | each of BraveWallet-SOL, Phantom, Solflare, Backpack, unknown exactly under the precedence Brave > Phantom > Solflare > Backpack |
| Collector.HeadAttrs | sdk/junction.js:57-107 | the list always opens with exactly the eight names url, j-path, j-title, j-referrer, browser, os, device, screen |
| Collector.OptionalAttrs | sdk/junction.js:108-174 | after the head come at most nine attributes, all with optional names |
| Collector.WalletAttrs | sdk/junction.js:129-174 | the wallet part has at most seven attributes, all with wallet names |
| Collector.WalletAttrsOrdered | sdk/junction.js:129-174 | the wallet part is in provider order: every Arweave attribute before every Ethereum one, every Ethereum one before every Solana one |
| Collector.ClientInfoWalletsOrdered | sdk/junction.js:53-177 | from the position after the connection and timezone attributes, the client-info list is exactly the wallet part, in provider order |
| Collector.ClientInfo | sdk/junction.js:53-177 | 8 to 17 attributes; the head names in order, with values: the page fields, the three classifications of the user agent and the `WxH` screen label; only optional names after the head |
| Collector.WalletNameCount | sdk/junction.js:53-177 | wallet names occur only in the wallet part of the list |
| Collector.ProviderCounts | sdk/junction.js:129-174 | how many times each name occurs in each provider's part |
| Collector.WalletNameOccurrences | sdk/junction.js:129-174 | how many times a wallet name occurs in the whole list, read off the providers |
| Collector.WalletAttributeCounts | sdk/junction.js:129-174 | each provider present contributes exactly one name attribute; `ar-con`, `eth-con`, `eth-chain` and `sol-con` appear once exactly when their probe succeeded, `eth-con` and `eth-chain` together |
| Collector.MarkerFollowsOwner | sdk/junction.js:129-174 | a connection marker always directly follows its owner attribute |
| Collector.MarkersFollowProviders | sdk/junction.js:129-174 | `ar-con` follows `ar`, `eth-con` follows `eth`, `eth-chain` follows `eth-con`, and `sol-con` follows `sol` |
| Collector.DropArConWallet | sdk/junction.js:132-137 | on the wallet part, a rejected address probe gives the successful probe's attributes minus `ar-con` |
| Collector.ProbeFailureOnlyDropsMarker | sdk/junction.js:132-137 | a rejected address probe yields the list of a successful probe minus `ar-con`, the same list as a falsy address |
| Collector.OptionalAttrsOrder | sdk/junction.js:108-126 | `connection` is at position 8 exactly when the browser exposes a connection, with "unknown" for a falsy type; `tz` follows with the emitted zone; only wallet attributes come after |
| Collector.FindClassifications | sdk/junction.js:196 | `find` for browser and os on the list returns the classifier labels of the user agent |
| Collector.FindTimezone | sdk/junction.js:197 | `find` for tz returns the emitted zone, or nothing when none was emitted |
| Track.RewriteTimestamp | sdk/junction.js:194 | the result never ends in a millisecond suffix; a string without one is unchanged; one with it keeps everything before the dot and is two characters shorter |
| Track.RewriteTimestampDropsMillis | sdk/junction.js:194 | a `toISOString()` value `<date-time>.ddd Z` becomes `<date-time>GMT` |
| Track.RewriteTimestampIdempotent | sdk/junction.js:194 | rewriting twice equals rewriting once |
| Track.LoadTime | sdk/junction.js:183-184 | without timing data the load time is the literal "0.0s"; with it, the computed value |
| Track.Capitalize | sdk/junction.js:196 | same length; the first character upper-cased and the rest unchanged |
| Track.BrowserDevice | sdk/junction.js:196 | the label is never shorter than "a b"; each half is stated by Track.BrowserDeviceHalves |
| Track.FilterClientInfo | sdk/junction.js:186-188 | no attribute of the filtered list carries j-path, j-title, j-referrer or j-lt |
| Track.FilterPageAttrs | sdk/junction.js:186-188 | of the four page attributes only the url survives the filter |
| Track.FilterKeepsRest | sdk/junction.js:186-188 | everything after the page attributes survives the filter unchanged |
| Track.FilterDropsPageFields | sdk/junction.js:186-188 | the filtered client info is the url followed by the list from the browser attribute on, in order |
| Track.TagList | sdk/junction.js:191-200 | seven head tags Action, ev, timestamp, pageVisited, browserDevice, country, lt, carrying the event and the path, then exactly the filtered list |
| Track.Tags | sdk/junction.js:179-200 | the tag list is 7 tags longer than the filtered client info, with the fixed head names, the event name and the path |
| Track.TagsDerivedValues | sdk/junction.js:191-200 | the head values are "Track", the rewritten timestamp, the capitalised browser label plus the OS label, the country of the emitted zone and the load time, which is "0.0s" without timing data; the tail is the url followed by the list from the browser attribute on |
| Track.CapitalizedBrowserLabels | sdk/junction.js:196 | the capitalised browser label is one of Brave, Chrome, Firefox, Safari, Others |
| Track.BrowserDeviceHalves | sdk/junction.js:196 | each half falls back on its own: a missing or empty browser value makes the label start "Unknown ", a missing or empty OS value makes it end " Unknown", and a present value stands in its place, the browser's capitalised; the length is the two halves plus one, so exactly one space separates them |
| Track.PayloadIgnored | sdk/junction.js:179-200 | two calls differing only in the payload produce the same tags |

## Left out

- `Junction.initialize` (sdk/junction.js:18-51) is left out. It does localStorage persistence, key generation and signing through foreign libraries.
- The `message()` submission (sdk/junction.js:203-207) is left out. So is the async ordering between concurrent `track` calls. Both are transport and scheduling, not tag construction.
- `page()` (sdk/junction.js:255-265) is left out: it only builds a payload, and `track` ignores the payload.
- `initAutoTracking` (sdk/junction.js:268-282) is left out: it patches `history.pushState` and registers listeners.
- `sdk/browser.js` is not part of this model. It is bootstrap plumbing: script-tag reading, listeners, the `window.analytics` global and the `Date.now()` timing fallback.
- Track.LoadTime: the `toFixed(1)` seconds computation is not modelled, because it needs floating-point division and number formatting. The computed value is an opaque string; only the choice between it and `'0.0s'` is modelled.
- Timezone.OffsetLabel: only offsets that are whole hours are modelled. A fractional-hour offset renders a floating-point quotient.
- Timezone.Country: JavaScript object lookup also finds inherited keys, so a zone string such as "constructor" or "toString" would yield a function rather than "Unknown". The model treats the table as a plain map.
- Text.IntToString: JavaScript's exponent notation for magnitudes from 1e21 on is not modelled. Screen sizes and hour offsets never reach it.
- Track.Capitalize: only ASCII letters are upper-cased, where `toUpperCase()` covers all of Unicode. The five browser labels the collector emits are ASCII, so `Track.Tags` is exact. Only `Track.TagList` or `Track.BrowserDevice` applied to an arbitrary list can differ: "éx" stays "éx" where JavaScript gives "Éx".
- The clock is not modelled: `new Date().toISOString()` is an input string. The same goes for `Date.now()` at sdk/junction.js:55, which is never used in the tags.
- The environment is read at a single instant. In the code, `#getClientInfo` reads `window.ethereum` and `window.solana` only after awaiting `getActiveAddress()` (sdk/junction.js:133, 140-174), and `track` reads the path, `performance.timing` and the clock only after awaiting `#getClientInfo()` (sdk/junction.js:180-194). A navigation or wallet change during those awaits, which would make `pageVisited` disagree with `url`/`j-path`, is not modelled.
- Logging through `Junction.log` is not modelled.
- The DOM queries are not modelled. They appear as fields of `Collector.Env`:
  - `document.querySelector`
  - `navigator.*`
  - `window.screen`
  - `Intl.DateTimeFormat`
  - `getTimezoneOffset`
  - the wallet globals
- Whether `Intl` throws is the `TimezoneProbe` alternative. Whether `getActiveAddress()` rejects is the `AddressProbe` alternative.

=== FILE: attrs.dfy ===
/** Tags: the `{ name, value }` pairs a tracked event is made of, and the
    array operations the tag builder applies to them (`find` by name and
    `filter` by a list of names). */
module Attrs {
  import opened Wrappers

  /** One tag; both halves are strings. */
  datatype Attr = Attr(name: string, value: string)

  /** `info.find(i => i.name === name)?.value`: the value of the first
      attribute with that name, or nothing. */
  function Find(info: seq<Attr>, name: string): (r: Option<string>)
    ensures r.None? <==> NameCount(info, name) == 0
  {
    NameCountZero(info, name);
    match FirstNamed(info, name, 0)
    case None => None
    case Some(k) => Some(info[k].value)
  }

  /** The position of the first attribute at or after `from` called `name`. */
  function FirstNamed(info: seq<Attr>, name: string, from: nat): (r: Option<nat>)
    requires from <= |info|
    ensures r.None? <==> forall j :: from <= j < |info| ==> info[j].name != name
    ensures r.Some? ==>
      from <= r.value < |info| && info[r.value].name == name &&
      forall j :: from <= j < r.value ==> info[j].name != name
    decreases |info| - from
  {
    if from == |info| then None
    else if info[from].name == name then Some(from)
    else FirstNamed(info, name, from + 1)
  }

  /** `find` by name answers nothing exactly when no attribute has the
      name, and otherwise the value at the first index that has it. */
  lemma FindFirst(info: seq<Attr>, name: string)
    ensures Find(info, name).None? <==> forall j :: 0 <= j < |info| ==> info[j].name != name
    ensures forall k :: 0 <= k < |info| && info[k].name == name && (forall j :: 0 <= j < k ==> info[j].name != name) ==>
      Find(info, name) == Some(info[k].value)
  {
  }

  lemma {:induction false} FirstNamedAppend(a: seq<Attr>, b: seq<Attr>, name: string, from: nat)
    requires from <= |a|
    ensures FirstNamed(a + b, name, from) ==
      match FirstNamed(a, name, from)
      case Some(k) => Some(k)
      case None => match FirstNamed(b, name, 0) case Some(k) => Some(|a| + k) case None => None
    decreases |a| - from
  {
    if from == |a| {
      FirstNamedShift(a, b, name, 0);
    } else if a[from].name != name {
      FirstNamedAppend(a, b, name, from + 1);
    }
  }

  /** Searching past a prefix is searching the rest. */
  lemma {:induction false} FirstNamedShift(a: seq<Attr>, b: seq<Attr>, name: string, from: nat)
    requires from <= |b|
    ensures FirstNamed(a + b, name, |a| + from) ==
      match FirstNamed(b, name, from) case Some(k) => Some(|a| + k) case None => None
    decreases |b| - from
  {
    if from < |b| {
      assert (a + b)[|a| + from] == b[from];
      FirstNamedShift(a, b, name, from + 1);
    }
  }

  /** Searching a concatenation searches the second part only when the
      first part has no attribute of that name. */
  lemma FindAppend(a: seq<Attr>, b: seq<Attr>, name: string)
    ensures Find(a + b, name) == if Find(a, name).Some? then Find(a, name) else Find(b, name)
  {
    FirstNamedAppend(a, b, name, 0);
    match FirstNamed(a + b, name, 0)
    case None =>
    case Some(k) =>
      if k >= |a| {
        assert (a + b)[k] == b[k - |a|];
      }
  }

  /** `info.filter(i => !names.includes(i.name))`. */
  function Drop(info: seq<Attr>, names: set<string>): (r: seq<Attr>)
    ensures |r| <= |info|
    ensures forall i :: 0 <= i < |r| ==> r[i].name !in names
    decreases |info|
  {
    if |info| == 0 then []
    else if info[0].name in names then Drop(info[1..], names)
    else [info[0]] + Drop(info[1..], names)
  }

  /** An attribute survives the filter exactly when it was there and its
      name is not one of `names`. */
  lemma {:induction false} DropMembers(info: seq<Attr>, names: set<string>)
    ensures forall x :: x in Drop(info, names) <==> x in info && x.name !in names
    decreases |info|
  {
    if |info| > 0 {
      DropMembers(info[1..], names);
      assert info == [info[0]] + info[1..];
    }
  }

  /** Filtering keeps relative order: it commutes with concatenation. */
  lemma {:induction false} DropAppend(a: seq<Attr>, b: seq<Attr>, names: set<string>)
    ensures Drop(a + b, names) == Drop(a, names) + Drop(b, names)
    decreases |a|
  {
    if |a| == 0 {
      assert a + b == b;
    } else {
      assert (a + b)[1..] == a[1..] + b;
      DropAppend(a[1..], b, names);
    }
  }

  /** A list with none of the names is left exactly as it was. */
  lemma {:induction false} DropNoneNamed(info: seq<Attr>, names: set<string>)
    requires forall j :: 0 <= j < |info| ==> info[j].name !in names
    ensures Drop(info, names) == info
    decreases |info|
  {
    if |info| > 0 {
      DropNoneNamed(info[1..], names);
      assert info == [info[0]] + info[1..];
    }
  }

  /** Number of attributes called `name`. */
  function NameCount(info: seq<Attr>, name: string): nat
    decreases |info|
  {
    if |info| == 0 then 0
    else (if info[0].name == name then 1 else 0) + NameCount(info[1..], name)
  }

  lemma {:induction false} NameCountAppend(a: seq<Attr>, b: seq<Attr>, name: string)
    ensures NameCount(a + b, name) == NameCount(a, name) + NameCount(b, name)
    decreases |a|
  {
    if |a| == 0 {
      assert a + b == b;
    } else {
      assert (a + b)[1..] == a[1..] + b;
      NameCountAppend(a[1..], b, name);
    }
  }

  /** Filtering zeroes the count of a filtered name and keeps every other
      count. */
  lemma {:induction false} DropCounts(info: seq<Attr>, names: set<string>, name: string)
    ensures NameCount(Drop(info, names), name) == if name in names then 0 else NameCount(info, name)
    decreases |info|
  {
    if |info| > 0 {
      DropCounts(info[1..], names, name);
      if info[0].name !in names {
        assert ([info[0]] + Drop(info[1..], names))[1..] == Drop(info[1..], names);
      }
    }
  }

  /** A count is zero exactly when no attribute carries the name. */
  lemma {:induction false} NameCountZero(info: seq<Attr>, name: string)
    ensures NameCount(info, name) == 0 <==> forall j :: 0 <= j < |info| ==> info[j].name != name
    decreases |info|
  {
    if |info| > 0 {
      NameCountZero(info[1..], name);
      assert forall j :: 1 <= j < |info| ==> info[j] == info[1..][j - 1];
    }
  }

  /** Every attribute called `marker` directly follows one called `owner`. */
  predicate Follows(info: seq<Attr>, marker: string, owner: string)
  {
    forall j :: 0 <= j < |info| && info[j].name == marker ==> 0 < j && info[j - 1].name == owner
  }

  /** `Follows` survives concatenation unless the second part starts with a
      marker, whose owner would then have to end the first part. */
  lemma FollowsAppend(a: seq<Attr>, b: seq<Attr>, marker: string, owner: string)
    requires Follows(a, marker, owner) && Follows(b, marker, owner)
    requires |b| > 0 ==> b[0].name != marker
    ensures Follows(a + b, marker, owner)
  {
    var ab := a + b;
    forall j | 0 <= j < |ab| && ab[j].name == marker
      ensures 0 < j && ab[j - 1].name == owner
    {
      if j >= |a| {
        assert ab[j] == b[j - |a|];
        assert ab[j - 1] == b[j - |a| - 1];
      }
    }
  }
}

=== FILE: collector.dfy ===
/** The client-info collector: the ordered attribute list describing the
    page, the browser, the device and any wallet providers the page exposes.
    The browser environment it reads is taken as one immutable record. */
module Collector {
  import opened Wrappers
  import opened Text
  import opened Attrs
  import opened UserAgent
  import opened PageUrl
  import opened Timezone

  /** Outcome of awaiting `arweaveWallet.getActiveAddress()`: a value (empty
      when falsy) or a rejection, which the collector swallows. */
  datatype AddressProbe = Address(address: string) | ProbeFailed

  /** `window.arweaveWallet`; an empty `walletName` stands for a falsy one. */
  datatype ArweaveWallet = ArweaveWallet(walletName: string, activeAddress: AddressProbe)

  /** `window.ethereum`: its brand flags, `selectedAddress` (empty when
      falsy) and `chainId` as `'' + chainId` renders it. */
  datatype EthereumProvider = EthereumProvider(
    isBraveWallet: bool, isMetaMask: bool, selectedAddress: string, chainId: string)

  /** `window.solana`: its brand flags and whether `publicKey` is truthy. */
  datatype SolanaProvider = SolanaProvider(
    isBraveWallet: bool, isPhantom: bool, isSolflare: bool, isBackpack: bool, hasPublicKey: bool)

  /** The resolved IANA zone name (empty when falsy), or the offset the
      fallback reads when resolving throws. */
  datatype TimezoneProbe = ZoneName(zone: string) | ZoneFailed(offsetMinutes: WholeHourOffset)

  /** Everything the collector reads from the page. `canonicalHref` is the
      canonical link's href (None without such a link); `connection` is
      `navigator.connection.effectiveType` (empty when falsy), None when the
      browser has no `navigator.connection`. */
  datatype Env = Env(
    userAgent: string,
    href: string,
    pathname: string,
    title: string,
    referrer: string,
    canonicalHref: Option<string>,
    screenWidth: nat,
    screenHeight: nat,
    connection: Option<string>,
    timezone: TimezoneProbe,
    arweave: Option<ArweaveWallet>,
    ethereum: Option<EthereumProvider>,
    solana: Option<SolanaProvider>)

  /** The names every client-info list starts with, in order. */
  const HeadNames: seq<string> :=
    ["url", "j-path", "j-title", "j-referrer", "browser", "os", "device", "screen"]

  /** The names that may follow the head. */
  const OptionalNames: set<string> :=
    {"connection", "tz", "ar", "ar-con", "eth", "eth-con", "eth-chain", "sol", "sol-con"}

  /** `${width}x${height}`: the width's digits, one 'x', the height's
      digits. */
  function ScreenLabel(width: nat, height: nat): (r: string)
    ensures |r| == |NatToString(width)| + 1 + |NatToString(height)|
    ensures forall i :: 0 <= i < |r| ==> (r[i] == 'x' <==> i == |NatToString(width)|)
    ensures forall i :: 0 <= i < |r| && i != |NatToString(width)| ==> IsDigit(r[i])
  {
    NatToString(width) + "x" + NatToString(height)
  }

  /** Splits a screen label at its first 'x' and reads both sides. */
  function ParseScreenLabel(s: string): Option<(nat, nat)>
  {
    match IndexOf(s, 'x')
    case None => None
    case Some(i) =>
      if AllDigits(s[..i]) && AllDigits(s[i + 1..]) then Some((ParseNat(s[..i]), ParseNat(s[i + 1..])))
      else None
  }

  /** The screen label keeps both dimensions recoverable. */
  lemma ScreenLabelRoundTrip(width: nat, height: nat)
    ensures ParseScreenLabel(ScreenLabel(width, height)) == Some((width, height))
  {
    var w, h := NatToString(width), NatToString(height);
    var s := ScreenLabel(width, height);
    assert 'x' !in w by {
      assert forall k :: 0 <= k < |w| ==> IsDigit(w[k]);
    }
    assert s[|w|] == 'x';
    assert s[..|w|] == w;
    assert IndexOf(s, 'x') == Some(|w|);
    assert s[|w| + 1..] == h;
    ParseNatToString(width);
    ParseNatToString(height);
  }

  function PageAttrs(env: Env, trackHashes: bool): seq<Attr>
  {
    [Attr("url", SelectUrl(env.canonicalHref, env.href, trackHashes)),
     Attr("j-path", env.pathname),
     Attr("j-title", env.title),
     Attr("j-referrer", env.referrer)]
  }

  function DeviceAttrs(env: Env): seq<Attr>
  {
    [Attr("browser", Browser(env.userAgent)),
     Attr("os", Os(env.userAgent)),
     Attr("device", Device(env.userAgent)),
     Attr("screen", ScreenLabel(env.screenWidth, env.screenHeight))]
  }

  function ConnectionAttrs(connection: Option<string>): (r: seq<Attr>)
    ensures forall i :: 0 <= i < |r| ==> r[i].name == "connection"
  {
    match connection
    case None => []
    case Some(t) => [Attr("connection", if t == "" then "unknown" else t)]
  }

  /** The value of the `tz` attribute, if one is emitted: a falsy zone name
      emits none, a failed lookup emits the offset label. */
  function ZoneOf(timezone: TimezoneProbe): (r: Option<string>)
    ensures r.None? <==> timezone.ZoneName? && |timezone.zone| == 0
    ensures timezone.ZoneName? && r.Some? ==> r.value == timezone.zone
    ensures timezone.ZoneFailed? ==> r == Some(OffsetLabel(timezone.offsetMinutes))
  {
    match timezone
    case ZoneName(z) => if z == "" then None else Some(z)
    case ZoneFailed(m) => Some(OffsetLabel(m))
  }

  /** When the zone lookup throws, the emitted value still determines the
      offset it was built from. */
  lemma FailedZoneKeepsOffset(offsetMinutes: WholeHourOffset)
    ensures ParseOffsetLabel(ZoneOf(ZoneFailed(offsetMinutes)).value) == Some(offsetMinutes)
  {
    OffsetLabelRoundTrip(offsetMinutes);
  }

  function TimezoneAttrs(timezone: TimezoneProbe): (r: seq<Attr>)
    ensures forall i :: 0 <= i < |r| ==> r[i].name == "tz"
  {
    match ZoneOf(timezone)
    case None => []
    case Some(z) => [Attr("tz", z)]
  }

  /** `walletName || 'ArConnect'`, then the `ar-con` marker when the
      address probe returned a truthy address. */
  function ArweaveAttrs(wallet: Option<ArweaveWallet>): (r: seq<Attr>)
    ensures |r| <= 2
    ensures forall i :: 0 <= i < |r| ==> r[i].name in {"ar", "ar-con"}
    ensures wallet.None? <==> |r| == 0
    ensures wallet.Some? ==>
      r[0] == Attr("ar", if wallet.value.walletName == "" then "ArConnect" else wallet.value.walletName)
    ensures |r| == 2 <==>
      wallet.Some? && wallet.value.activeAddress.Address? && wallet.value.activeAddress.address != ""
    ensures |r| == 2 ==> r[1] == Attr("ar-con", "1")
  {
    match wallet
    case None => []
    case Some(w) =>
      [Attr("ar", if w.walletName == "" then "ArConnect" else w.walletName)]
      + (if w.activeAddress.Address? && w.activeAddress.address != "" then [Attr("ar-con", "1")] else [])
  }

  /** The Ethereum brand: Brave's wallet flag first, then MetaMask. */
  function EthereumBrand(p: EthereumProvider): (r: string)
    ensures r == "BraveWallet-ETH" <==> p.isBraveWallet
    ensures r == "MetaMask" <==> !p.isBraveWallet && p.isMetaMask
    ensures r == "unknown" <==> !p.isBraveWallet && !p.isMetaMask
  {
    if p.isBraveWallet then "BraveWallet-ETH" else if p.isMetaMask then "MetaMask" else "unknown"
  }

  /** The brand, then the marker and the chain id together when
      `selectedAddress` is truthy. */
  function EthereumAttrs(provider: Option<EthereumProvider>): (r: seq<Attr>)
    ensures |r| <= 3
    ensures forall i :: 0 <= i < |r| ==> r[i].name in {"eth", "eth-con", "eth-chain"}
    ensures provider.None? <==> |r| == 0
    ensures provider.Some? ==> r[0] == Attr("eth", EthereumBrand(provider.value))
    ensures |r| > 1 <==> provider.Some? && provider.value.selectedAddress != ""
    ensures |r| > 1 ==> |r| == 3 && r[1] == Attr("eth-con", "1") && r[2] == Attr("eth-chain", provider.value.chainId)
  {
    match provider
    case None => []
    case Some(p) =>
      [Attr("eth", EthereumBrand(p))]
      + (if p.selectedAddress != "" then [Attr("eth-con", "1"), Attr("eth-chain", p.chainId)] else [])
  }

  /** The Solana brand, by the precedence Brave, Phantom, Solflare,
      Backpack. */
  function SolanaBrand(p: SolanaProvider): (r: string)
    ensures r == "BraveWallet-SOL" <==> p.isBraveWallet
    ensures r == "Phantom" <==> !p.isBraveWallet && p.isPhantom
    ensures r == "Solflare" <==> !p.isBraveWallet && !p.isPhantom && p.isSolflare
    ensures r == "Backpack" <==> !p.isBraveWallet && !p.isPhantom && !p.isSolflare && p.isBackpack
    ensures r == "unknown" <==> !p.isBraveWallet && !p.isPhantom && !p.isSolflare && !p.isBackpack
  {
    if p.isBraveWallet then "BraveWallet-SOL"
    else if p.isPhantom then "Phantom"
    else if p.isSolflare then "Solflare"
    else if p.isBackpack then "Backpack"
    else "unknown"
  }

  /** The brand, then the marker when `publicKey` is truthy. */
  function SolanaAttrs(provider: Option<SolanaProvider>): (r: seq<Attr>)
    ensures |r| <= 2
    ensures forall i :: 0 <= i < |r| ==> r[i].name in {"sol", "sol-con"}
    ensures provider.None? <==> |r| == 0
    ensures provider.Some? ==> r[0] == Attr("sol", SolanaBrand(provider.value))
    ensures |r| == 2 <==> provider.Some? && provider.value.hasPublicKey
    ensures |r| == 2 ==> r[1] == Attr("sol-con", "1")
  {
    match provider
    case None => []
    case Some(p) => [Attr("sol", SolanaBrand(p))] + (if p.hasPublicKey then [Attr("sol-con", "1")] else [])
  }

  /** The whole client-info list. It always opens with the eight head
      attributes, carrying the page data and the three classifications, and
      everything after them is one of the optional attributes. */
  function ClientInfo(env: Env, trackHashes: bool): (r: seq<Attr>)
    ensures 8 <= |r| <= 17
    ensures forall i :: 0 <= i < 8 ==> r[i].name == HeadNames[i]
    ensures forall i :: 8 <= i < |r| ==> r[i].name in OptionalNames
    ensures r[0].value == SelectUrl(env.canonicalHref, env.href, trackHashes)
    ensures r[1].value == env.pathname && r[2].value == env.title && r[3].value == env.referrer
    ensures r[4].value == Browser(env.userAgent) && r[5].value == Os(env.userAgent)
    ensures r[6].value == Device(env.userAgent) && r[7].value == ScreenLabel(env.screenWidth, env.screenHeight)
  {
    var head := HeadAttrs(env, trackHashes);
    var tail := OptionalAttrs(env);
    assert forall i :: 0 <= i < 8 ==> (head + tail)[i] == head[i];
    assert (head + tail)[8..] == tail;
    head + tail
  }

  /** The eight attributes every list opens with. */
  function HeadAttrs(env: Env, trackHashes: bool): (r: seq<Attr>)
    ensures |r| == 8
    ensures forall i :: 0 <= i < 8 ==> r[i].name == HeadNames[i]
    ensures r[0].value == SelectUrl(env.canonicalHref, env.href, trackHashes)
    ensures r[1].value == env.pathname && r[2].value == env.title && r[3].value == env.referrer
    ensures r[4].value == Browser(env.userAgent) && r[5].value == Os(env.userAgent)
    ensures r[6].value == Device(env.userAgent) && r[7].value == ScreenLabel(env.screenWidth, env.screenHeight)
  {
    var page, device := PageAttrs(env, trackHashes), DeviceAttrs(env);
    assert forall i :: 0 <= i < 4 ==> (page + device)[i] == page[i] && (page + device)[i + 4] == device[i];
    page + device
  }

  /** The attributes after the head: connection, timezone, then the three
      wallet providers. */
  function OptionalAttrs(env: Env): (r: seq<Attr>)
    ensures |r| <= 9
    ensures forall i :: 0 <= i < |r| ==> r[i].name in OptionalNames
  {
    ConnectionAttrs(env.connection) + TimezoneAttrs(env.timezone) + WalletAttrs(env)
  }

  function WalletAttrs(env: Env): (r: seq<Attr>)
    ensures |r| <= 7
    ensures forall i :: 0 <= i < |r| ==> r[i].name in WalletNames
  {
    ArweaveAttrs(env.arweave) + EthereumAttrs(env.ethereum) + SolanaAttrs(env.solana)
  }

  /** The provider a wallet name belongs to, in push order: Arweave,
      Ethereum, Solana. */
  function ProviderRank(name: string): nat
  {
    if name in {"ar", "ar-con"} then 0
    else if name in {"eth", "eth-con", "eth-chain"} then 1
    else 2
  }

  /** No attribute of a later provider comes before one of an earlier
      provider. */
  predicate ProviderOrdered(info: seq<Attr>)
  {
    forall i, j :: 0 <= i < j < |info| ==> ProviderRank(info[i].name) <= ProviderRank(info[j].name)
  }

  /** Three groups of ascending rank, concatenated, are in provider order. */
  lemma GroupsOrdered(a: seq<Attr>, e: seq<Attr>, s: seq<Attr>)
    requires forall i :: 0 <= i < |a| ==> ProviderRank(a[i].name) == 0
    requires forall i :: 0 <= i < |e| ==> ProviderRank(e[i].name) == 1
    requires forall i :: 0 <= i < |s| ==> ProviderRank(s[i].name) == 2
    ensures ProviderOrdered(a + e + s)
  {
    var w := a + e + s;
    forall k | 0 <= k < |w|
      ensures ProviderRank(w[k].name) == if k < |a| then 0 else if k < |a| + |e| then 1 else 2
    {
      if k < |a| {
        assert w[k] == a[k];
      } else if k < |a| + |e| {
        assert w[k] == e[k - |a|];
      } else {
        assert w[k] == s[k - |a| - |e|];
      }
    }
  }

  /** The wallet part holds the Arweave attributes, then the Ethereum ones,
      then the Solana ones. */
  lemma WalletAttrsOrdered(env: Env)
    ensures ProviderOrdered(WalletAttrs(env))
  {
    GroupsOrdered(ArweaveAttrs(env.arweave), EthereumAttrs(env.ethereum), SolanaAttrs(env.solana));
  }

  /** The address probe found an active Arweave account. */
  predicate ArweaveConnected(env: Env)
  {
    env.arweave.Some? && env.arweave.value.activeAddress.Address?
    && env.arweave.value.activeAddress.address != ""
  }

  predicate EthereumConnected(env: Env)
  {
    env.ethereum.Some? && env.ethereum.value.selectedAddress != ""
  }

  predicate SolanaConnected(env: Env)
  {
    env.solana.Some? && env.solana.value.hasPublicKey
  }

  /** Names only the wallet providers emit. */
  const WalletNames: set<string> := {"ar", "ar-con", "eth", "eth-con", "eth-chain", "sol", "sol-con"}

  /** A name absent from two leading parts is counted in the last part
      alone. */
  lemma NameCountPastPrefix(head: seq<Attr>, pre: seq<Attr>, rest: seq<Attr>, name: string)
    requires forall j :: 0 <= j < |head| ==> head[j].name != name
    requires forall j :: 0 <= j < |pre| ==> pre[j].name != name
    ensures NameCount(head + (pre + rest), name) == NameCount(rest, name)
  {
    NameCountZero(head, name);
    NameCountZero(pre, name);
    NameCountAppend(pre, rest, name);
    NameCountAppend(head, pre + rest, name);
  }

  /** Wallet names occur only in the wallet part of the list. */
  lemma WalletNameCount(env: Env, trackHashes: bool, name: string)
    requires name in WalletNames
    ensures NameCount(ClientInfo(env, trackHashes), name) == NameCount(WalletAttrs(env), name)
  {
    var head, pre := HeadAttrs(env, trackHashes), ConnectionAttrs(env.connection) + TimezoneAttrs(env.timezone);
    NotAHeadName(name);
    PreHoldsNoWalletName(env.connection, env.timezone, name);
    NameCountPastPrefix(head, pre, WalletAttrs(env), name);
  }

  /** Number of attributes called `name` in a list of at most three. */
  lemma NameCountShort(info: seq<Attr>, name: string)
    requires |info| <= 3
    ensures NameCount(info, name) ==
      (if |info| > 0 && info[0].name == name then 1 else 0)
      + (if |info| > 1 && info[1].name == name then 1 else 0)
      + (if |info| > 2 && info[2].name == name then 1 else 0)
  {
    if |info| > 0 {
      assert |info[1..]| > 0 ==> info[1..][0] == info[1];
      if |info| > 1 {
        assert info[1..][1..] == info[2..];
      }
    }
  }

  lemma ProviderCounts(env: Env, name: string)
    ensures NameCount(ArweaveAttrs(env.arweave), name) ==
      (if env.arweave.Some? && name == "ar" then 1 else 0) + (if ArweaveConnected(env) && name == "ar-con" then 1 else 0)
    ensures NameCount(EthereumAttrs(env.ethereum), name) ==
      (if env.ethereum.Some? && name == "eth" then 1 else 0)
      + (if EthereumConnected(env) && name == "eth-con" then 1 else 0)
      + (if EthereumConnected(env) && name == "eth-chain" then 1 else 0)
    ensures NameCount(SolanaAttrs(env.solana), name) ==
      (if env.solana.Some? && name == "sol" then 1 else 0) + (if SolanaConnected(env) && name == "sol-con" then 1 else 0)
  {
    NameCountShort(ArweaveAttrs(env.arweave), name);
    NameCountShort(EthereumAttrs(env.ethereum), name);
    NameCountShort(SolanaAttrs(env.solana), name);
  }

  /** How often a wallet name occurs in the whole list, read off the
      providers. */
  lemma WalletNameOccurrences(env: Env, trackHashes: bool, name: string)
    requires name in WalletNames
    ensures NameCount(ClientInfo(env, trackHashes), name) ==
      (if env.arweave.Some? && name == "ar" then 1 else 0)
      + (if ArweaveConnected(env) && name == "ar-con" then 1 else 0)
      + (if env.ethereum.Some? && name == "eth" then 1 else 0)
      + (if EthereumConnected(env) && name == "eth-con" then 1 else 0)
      + (if EthereumConnected(env) && name == "eth-chain" then 1 else 0)
      + (if env.solana.Some? && name == "sol" then 1 else 0)
      + (if SolanaConnected(env) && name == "sol-con" then 1 else 0)
  {
    var a, e, s := ArweaveAttrs(env.arweave), EthereumAttrs(env.ethereum), SolanaAttrs(env.solana);
    WalletNameCount(env, trackHashes, name);
    NameCountAppend(a + e, s, name);
    NameCountAppend(a, e, name);
    ProviderCounts(env, name);
  }

  /** Each provider present contributes exactly one name attribute, and a
      connection marker exactly when its account probe succeeded; the
      Ethereum marker and chain id come and go together. */
  lemma WalletAttributeCounts(env: Env, trackHashes: bool)
    ensures NameCount(ClientInfo(env, trackHashes), "ar") == if env.arweave.Some? then 1 else 0
    ensures NameCount(ClientInfo(env, trackHashes), "eth") == if env.ethereum.Some? then 1 else 0
    ensures NameCount(ClientInfo(env, trackHashes), "sol") == if env.solana.Some? then 1 else 0
    ensures NameCount(ClientInfo(env, trackHashes), "ar-con") == if ArweaveConnected(env) then 1 else 0
    ensures NameCount(ClientInfo(env, trackHashes), "eth-con") == if EthereumConnected(env) then 1 else 0
    ensures NameCount(ClientInfo(env, trackHashes), "eth-chain") == if EthereumConnected(env) then 1 else 0
    ensures NameCount(ClientInfo(env, trackHashes), "sol-con") == if SolanaConnected(env) then 1 else 0
  {
    WalletNameOccurrences(env, trackHashes, "ar");
    WalletNameOccurrences(env, trackHashes, "eth");
    WalletNameOccurrences(env, trackHashes, "sol");
    WalletNameOccurrences(env, trackHashes, "ar-con");
    WalletNameOccurrences(env, trackHashes, "eth-con");
    WalletNameOccurrences(env, trackHashes, "eth-chain");
    WalletNameOccurrences(env, trackHashes, "sol-con");
  }

  /** A connection marker and the provider attribute it follows. */
  predicate MarksOwner(marker: string, owner: string)
  {
    || (marker == "ar-con" && owner == "ar")
    || (marker == "eth-con" && owner == "eth")
    || (marker == "eth-chain" && owner == "eth-con")
    || (marker == "sol-con" && owner == "sol")
  }

  lemma WalletMarkerFollowsOwner(env: Env, marker: string, owner: string)
    requires MarksOwner(marker, owner)
    ensures Follows(WalletAttrs(env), marker, owner)
  {
    var a, e, s := ArweaveAttrs(env.arweave), EthereumAttrs(env.ethereum), SolanaAttrs(env.solana);
    assert Follows(a + e, marker, owner) by {
      assert Follows(a, marker, owner);
      assert Follows(e, marker, owner);
      FollowsAppend(a, e, marker, owner);
    }
    assert Follows(s, marker, owner);
    FollowsAppend(a + e, s, marker, owner);
  }

  /** A marker follows its owner past any prefix that holds no marker. */
  lemma FollowsPastPrefix(head: seq<Attr>, pre: seq<Attr>, rest: seq<Attr>, marker: string, owner: string)
    requires forall j :: 0 <= j < |head| ==> head[j].name != marker
    requires forall j :: 0 <= j < |pre| ==> pre[j].name != marker
    requires Follows(rest, marker, owner)
    ensures Follows(head + (pre + rest), marker, owner)
  {
    FollowsAppend(pre, rest, marker, owner);
    FollowsAppend(head, pre + rest, marker, owner);
  }

  /** No optional name is a head name. */
  lemma NotAHeadName(name: string)
    requires name in OptionalNames
    ensures forall j :: 0 <= j < |HeadNames| ==> HeadNames[j] != name
  {
  }

  /** The connection and timezone attributes carry no wallet name. */
  lemma PreHoldsNoWalletName(connection: Option<string>, timezone: TimezoneProbe, name: string)
    requires name in WalletNames
    ensures var pre := ConnectionAttrs(connection) + TimezoneAttrs(timezone);
      forall j :: 0 <= j < |pre| ==> pre[j].name != name
  {
    var c, t := ConnectionAttrs(connection), TimezoneAttrs(timezone);
    assert forall j :: 0 <= j < |c + t| ==> (c + t)[j] == if j < |c| then c[j] else t[j - |c|];
  }

  lemma MarkerFollowsOwner(env: Env, trackHashes: bool, marker: string, owner: string)
    requires MarksOwner(marker, owner)
    ensures Follows(ClientInfo(env, trackHashes), marker, owner)
  {
    var head, pre := HeadAttrs(env, trackHashes), ConnectionAttrs(env.connection) + TimezoneAttrs(env.timezone);
    NotAHeadName(marker);
    PreHoldsNoWalletName(env.connection, env.timezone, marker);
    WalletMarkerFollowsOwner(env, marker, owner);
    FollowsPastPrefix(head, pre, WalletAttrs(env), marker, owner);
  }

  /** Every connection marker sits directly after its provider's name
      attribute, and the chain id directly after the Ethereum marker. */
  lemma MarkersFollowProviders(env: Env, trackHashes: bool)
    ensures Follows(ClientInfo(env, trackHashes), "ar-con", "ar")
    ensures Follows(ClientInfo(env, trackHashes), "eth-con", "eth")
    ensures Follows(ClientInfo(env, trackHashes), "eth-chain", "eth-con")
    ensures Follows(ClientInfo(env, trackHashes), "sol-con", "sol")
  {
    MarkerFollowsOwner(env, trackHashes, "ar-con", "ar");
    MarkerFollowsOwner(env, trackHashes, "eth-con", "eth");
    MarkerFollowsOwner(env, trackHashes, "eth-chain", "eth-con");
    MarkerFollowsOwner(env, trackHashes, "sol-con", "sol");
  }

  lemma DropArConHead(env: Env, trackHashes: bool)
    ensures Drop(HeadAttrs(env, trackHashes), {"ar-con"}) == HeadAttrs(env, trackHashes)
  {
    NotAHeadName("ar-con");
    DropNoneNamed(HeadAttrs(env, trackHashes), {"ar-con"});
  }

  lemma DropArConPre(connection: Option<string>, timezone: TimezoneProbe)
    ensures Drop(ConnectionAttrs(connection) + TimezoneAttrs(timezone), {"ar-con"})
      == ConnectionAttrs(connection) + TimezoneAttrs(timezone)
  {
    var pre := ConnectionAttrs(connection) + TimezoneAttrs(timezone);
    assert forall i :: 0 <= i < |pre| ==> pre[i].name in {"connection", "tz"};
    DropNoneNamed(pre, {"ar-con"});
  }

  /** On the wallet part, a rejected probe is a successful one with the
      marker filtered out. */
  lemma DropArConWallet(wallet: ArweaveWallet, address: string,
                        ethereum: Option<EthereumProvider>, solana: Option<SolanaProvider>)
    requires address != ""
    ensures
      var a := ArweaveAttrs(Some(wallet.(activeAddress := Address(address))));
      var f := ArweaveAttrs(Some(wallet.(activeAddress := ProbeFailed)));
      var e, s := EthereumAttrs(ethereum), SolanaAttrs(solana);
      Drop(a + e + s, {"ar-con"}) == f + e + s
  {
    var a := ArweaveAttrs(Some(wallet.(activeAddress := Address(address))));
    var e, s := EthereumAttrs(ethereum), SolanaAttrs(solana);
    DropNoneNamed(e, {"ar-con"});
    DropNoneNamed(s, {"ar-con"});
    DropAppend(a + e, s, {"ar-con"});
    DropAppend(a, e, {"ar-con"});
  }

  /** A rejected address probe costs exactly the "ar-con" marker: the list
      is the one a successful probe yields with that marker filtered out,
      and the same as for a probe that returned a falsy address. */
  lemma ProbeFailureOnlyDropsMarker(env: Env, trackHashes: bool, wallet: ArweaveWallet, address: string)
    requires address != ""
    ensures
      var ok := env.(arweave := Some(wallet.(activeAddress := Address(address))));
      var failed := env.(arweave := Some(wallet.(activeAddress := ProbeFailed)));
      ClientInfo(failed, trackHashes) == Drop(ClientInfo(ok, trackHashes), {"ar-con"})
    ensures
      var empty := env.(arweave := Some(wallet.(activeAddress := Address(""))));
      var failed := env.(arweave := Some(wallet.(activeAddress := ProbeFailed)));
      ClientInfo(failed, trackHashes) == ClientInfo(empty, trackHashes)
  {
    var ok := env.(arweave := Some(wallet.(activeAddress := Address(address))));
    var failed := env.(arweave := Some(wallet.(activeAddress := ProbeFailed)));
    var marker: set<string> := {"ar-con"};
    var head, pre := HeadAttrs(ok, trackHashes), ConnectionAttrs(ok.connection) + TimezoneAttrs(ok.timezone);
    assert Drop(OptionalAttrs(ok), marker) == OptionalAttrs(failed) by {
      DropArConWallet(wallet, address, ok.ethereum, ok.solana);
      DropArConPre(ok.connection, ok.timezone);
      DropAppend(pre, WalletAttrs(ok), marker);
    }
    assert Drop(ClientInfo(ok, trackHashes), marker) == head + OptionalAttrs(failed) by {
      DropArConHead(ok, trackHashes);
      DropAppend(head, OptionalAttrs(ok), marker);
    }
    assert HeadAttrs(failed, trackHashes) == head;
  }

  /** Where the optional attributes sit, within the optional part. */
  lemma OptionalPositions(connection: Option<string>, timezone: TimezoneProbe, wallets: seq<Attr>)
    requires forall i :: 0 <= i < |wallets| ==> wallets[i].name in WalletNames
    ensures var o := ConnectionAttrs(connection) + TimezoneAttrs(timezone) + wallets;
      var tzAt := if connection.Some? then 1 else 0;
      var walletsAt := tzAt + if ZoneOf(timezone).Some? then 1 else 0;
      && (connection.Some? ==> o[0] == Attr("connection", if connection.value == "" then "unknown" else connection.value))
      && (ZoneOf(timezone).Some? ==> o[tzAt] == Attr("tz", ZoneOf(timezone).value))
      && walletsAt <= |o|
      && (forall i :: walletsAt <= i < |o| ==> o[i].name in WalletNames)
  {
    var c, t := ConnectionAttrs(connection), TimezoneAttrs(timezone);
    var o := c + t + wallets;
    assert forall i :: |c| + |t| <= i < |o| ==> o[i] == wallets[i - |c| - |t|];
  }

  /** The positions of the optional part, shifted past any eight-element
      head. */
  lemma PositionsAfterHead(head: seq<Attr>, connection: Option<string>, timezone: TimezoneProbe,
                           wallets: seq<Attr>)
    requires |head| == 8
    requires forall i :: 0 <= i < |wallets| ==> wallets[i].name in WalletNames
    ensures var r := head + (ConnectionAttrs(connection) + TimezoneAttrs(timezone) + wallets);
      var tzAt := 8 + if connection.Some? then 1 else 0;
      var walletsAt := tzAt + if ZoneOf(timezone).Some? then 1 else 0;
      && (connection.Some? <==> |r| > 8 && r[8].name == "connection")
      && (connection.Some? ==> r[8].value == if connection.value == "" then "unknown" else connection.value)
      && (ZoneOf(timezone).Some? ==> r[tzAt] == Attr("tz", ZoneOf(timezone).value))
      && walletsAt <= |r|
      && (forall i :: walletsAt <= i < |r| ==> r[i].name in WalletNames)
  {
    var o := ConnectionAttrs(connection) + TimezoneAttrs(timezone) + wallets;
    var r := head + o;
    OptionalPositions(connection, timezone, wallets);
    assert forall i :: 8 <= i < |r| ==> r[i] == o[i - 8];
    if connection.None? && |r| > 8 {
      assert r[8] == o[0];
      if ZoneOf(timezone).None? {
        assert o[0].name in WalletNames;
      }
    }
  }

  /** After the head come the connection attribute (when the browser exposes
      one), then the timezone (when one is emitted), then only wallet
      attributes. */
  lemma OptionalAttrsOrder(env: Env, trackHashes: bool)
    ensures var r := ClientInfo(env, trackHashes);
      var tzAt := 8 + if env.connection.Some? then 1 else 0;
      var walletsAt := tzAt + if ZoneOf(env.timezone).Some? then 1 else 0;
      && (env.connection.Some? <==> |r| > 8 && r[8].name == "connection")
      && (env.connection.Some? ==>
            r[8].value == if env.connection.value == "" then "unknown" else env.connection.value)
      && (ZoneOf(env.timezone).Some? ==> r[tzAt] == Attr("tz", ZoneOf(env.timezone).value))
      && walletsAt <= |r|
      && (forall i :: walletsAt <= i < |r| ==> r[i].name in WalletNames)
  {
    PositionsAfterHead(HeadAttrs(env, trackHashes), env.connection, env.timezone, WalletAttrs(env));
  }

  /** From the wallet position of `OptionalAttrsOrder` on, the client-info
      list is exactly the wallet part, in provider order. */
  lemma ClientInfoWalletsOrdered(env: Env, trackHashes: bool)
    ensures var r := ClientInfo(env, trackHashes);
      var walletsAt := 8 + (if env.connection.Some? then 1 else 0) + (if ZoneOf(env.timezone).Some? then 1 else 0);
      walletsAt <= |r| && r[walletsAt..] == WalletAttrs(env) && ProviderOrdered(r[walletsAt..])
  {
    var head, pre := HeadAttrs(env, trackHashes), ConnectionAttrs(env.connection) + TimezoneAttrs(env.timezone);
    assert |pre| == (if env.connection.Some? then 1 else 0) + (if ZoneOf(env.timezone).Some? then 1 else 0);
    SuffixPastPrefix(head, pre, WalletAttrs(env));
    WalletAttrsOrdered(env);
  }

  lemma SuffixPastPrefix(head: seq<Attr>, pre: seq<Attr>, rest: seq<Attr>)
    ensures (head + (pre + rest))[|head| + |pre|..] == rest
  {
  }

  /** In any list opening with the head names, `find` for browser and os
      answers from the head. */
  lemma FindInHead(info: seq<Attr>)
    requires 8 <= |info|
    requires forall i :: 0 <= i < 8 ==> info[i].name == HeadNames[i]
    ensures Find(info, "browser") == Some(info[4].value) && Find(info, "os") == Some(info[5].value)
  {
    FindFirst(info, "browser");
    FindFirst(info, "os");
  }

  lemma FindClassifications(env: Env, trackHashes: bool)
    ensures Find(ClientInfo(env, trackHashes), "browser") == Some(Browser(env.userAgent))
    ensures Find(ClientInfo(env, trackHashes), "os") == Some(Os(env.userAgent))
  {
    FindInHead(ClientInfo(env, trackHashes));
  }

  lemma FindTimezoneOptional(connection: Option<string>, timezone: TimezoneProbe, wallets: seq<Attr>)
    requires forall i :: 0 <= i < |wallets| ==> wallets[i].name in WalletNames
    ensures Find(ConnectionAttrs(connection) + TimezoneAttrs(timezone) + wallets, "tz") == ZoneOf(timezone)
  {
    FindAppend(ConnectionAttrs(connection) + TimezoneAttrs(timezone), wallets, "tz");
    FindAppend(ConnectionAttrs(connection), TimezoneAttrs(timezone), "tz");
  }

  lemma FindTimezone(env: Env, trackHashes: bool)
    ensures Find(ClientInfo(env, trackHashes), "tz") == ZoneOf(env.timezone)
  {
    var head := HeadAttrs(env, trackHashes);
    assert Find(head, "tz") == None by {
      NotAHeadName("tz");
    }
    FindTimezoneOptional(env.connection, env.timezone, WalletAttrs(env));
    FindAppend(head, OptionalAttrs(env), "tz");
  }
}

=== FILE: pageurl.dfy ===
/** Choice of the `url` tag: the page's canonical link when it has a
    non-empty one, otherwise the location's href, with the fragment removed
    unless hash tracking is switched on. */
module PageUrl {
  import opened Wrappers

  /** The characters JavaScript's `.` refuses to match. */
  predicate IsLineTerminator(c: char)
  {
    c == '\n' || c == '\r' || c == '\U{2028}' || c == '\U{2029}'
  }

  predicate NoLineTerminator(s: string)
  {
    forall k :: 0 <= k < |s| ==> !IsLineTerminator(s[k])
  }

  /** The pattern `/#.*$/` (no `m` flag) matches starting at `i`: a '#'
      followed by characters `.` accepts all the way to the end. */
  predicate FragmentAt(s: string, i: int)
  {
    0 <= i < |s| && s[i] == '#' && NoLineTerminator(s[i + 1..])
  }

  /** The leftmost position at or after `from` where the pattern matches. */
  function FragmentStart(s: string, from: nat): (r: Option<nat>)
    requires from <= |s|
    ensures r.Some? ==>
      from <= r.value < |s| && FragmentAt(s, r.value) &&
      forall j :: from <= j < r.value ==> !FragmentAt(s, j)
    ensures r.None? ==> forall j :: from <= j < |s| ==> !FragmentAt(s, j)
    decreases |s| - from
  {
    if from == |s| then None
    else if FragmentAt(s, from) then Some(from)
    else FragmentStart(s, from + 1)
  }

  /** `href.replace(/#.*$/, '')`. What is removed is either nothing or a
      suffix that starts with '#' and holds no line terminator. */
  function StripFragment(href: string): (r: string)
    ensures r <= href
    ensures r == href || (href[|r|] == '#' && NoLineTerminator(href[|r|..]))
  {
    match FragmentStart(href, 0)
    case None => href
    case Some(i) => href[..i]
  }

  /** The url tag's value. Without a usable canonical link the result is
      never longer than the href, and it is the whole href when hashes are
      tracked. */
  function SelectUrl(canonical: Option<string>, href: string, trackHashes: bool): (r: string)
    ensures canonical.Some? && canonical.value != "" ==> r == canonical.value
    ensures (canonical.None? || canonical.value == "") ==> r <= href
    ensures (canonical.None? || canonical.value == "") && trackHashes ==> r == href
    ensures (canonical.None? || canonical.value == "") && !trackHashes ==> r == StripFragment(href)
  {
    if canonical.Some? && canonical.value != "" then canonical.value
    else if trackHashes then href
    else StripFragment(href)
  }

  /** Stripping twice is stripping once. */
  lemma StripFragmentIdempotent(href: string)
    ensures StripFragment(StripFragment(href)) == StripFragment(href)
  {
    var r := StripFragment(href);
    if r != href {
      var i := |r|;
      assert FragmentStart(href, 0) == Some(i);
      forall j | 0 <= j < |r| ensures !FragmentAt(r, j) {
        if r[j] == '#' {
          assert !FragmentAt(href, j);
          var k :| 0 <= k < |href[j + 1..]| && IsLineTerminator(href[j + 1..][k]);
          assert href[j + 1 + k] == href[j + 1..][k];
          assert r[j + 1..][k] == href[j + 1 + k];
        }
      }
      assert FragmentStart(r, 0) == None;
    }
  }

  /** On an href without line terminators (a serialised URL never holds
      one) the strip cuts at the first '#' and leaves no '#' behind. */
  lemma StripFragmentAtFirstHash(href: string)
    requires NoLineTerminator(href)
    ensures '#' !in StripFragment(href)
    ensures '#' in href ==> |StripFragment(href)| < |href| && href[|StripFragment(href)|] == '#'
  {
    var r := StripFragment(href);
    forall j | 0 <= j < |href| && href[j] == '#' ensures FragmentAt(href, j) {
      assert NoLineTerminator(href[j + 1..]);
    }
    if '#' in href {
      var j :| 0 <= j < |href| && href[j] == '#';
      assert FragmentAt(href, j);
      assert FragmentStart(href, 0).Some?;
    }
  }
}

=== FILE: text.dfy ===
/** String primitives the tag builder relies on: JavaScript's
    `String.prototype.includes`, the ASCII case folding a `/i` regular
    expression performs on ASCII patterns, and decimal rendering of integers
    as template literals produce it (`${n}`), together with its inverse. */
module Text {
  import opened Wrappers

  /** `s.includes(t)`: `t` occurs somewhere in `s`. */
  predicate Contains(s: string, t: string)
    decreases |s|
  {
    t <= s || (|s| > 0 && Contains(s[1..], t))
  }

  /** `t` occurs in `s` starting at position `i`. */
  predicate OccursAt(s: string, t: string, i: int)
  {
    0 <= i && i + |t| <= |s| && s[i..i + |t|] == t
  }

  /** Occurrences in `s` past its first character are the occurrences in
      `s[1..]`, one position earlier. */
  lemma OccursShift(s: string, t: string, i: int)
    requires |s| > 0 && i >= 1
    ensures OccursAt(s, t, i) <==> OccursAt(s[1..], t, i - 1)
  {
    if i + |t| <= |s| {
      assert s[1..][i - 1..i - 1 + |t|] == s[i..i + |t|];
    }
  }

  /** `Contains` agrees with the positional reading of substring search. */
  lemma {:induction false} ContainsIffOccurs(s: string, t: string)
    ensures Contains(s, t) <==> exists i :: OccursAt(s, t, i)
    decreases |s|
  {
    if t <= s {
      assert OccursAt(s, t, 0);
    } else if |s| == 0 {
      assert forall i :: !OccursAt(s, t, i);
    } else {
      ContainsIffOccurs(s[1..], t);
      assert !OccursAt(s, t, 0);
      forall i | OccursAt(s, t, i)
        ensures OccursAt(s[1..], t, i - 1)
      {
        OccursShift(s, t, i);
      }
      if Contains(s[1..], t) {
        var j :| OccursAt(s[1..], t, j);
        OccursShift(s, t, j + 1);
      }
    }
  }

  /** Upper-cases an ASCII letter and leaves every other character alone. */
  function UpperChar(c: char): char
  {
    if 'a' <= c <= 'z' then (c as int - 'a' as int + 'A' as int) as char else c
  }

  /** `UpperChar` applied to every character. */
  function UpperAscii(s: string): (r: string)
    ensures |r| == |s|
    ensures forall i :: 0 <= i < |s| ==> r[i] == UpperChar(s[i])
  {
    seq(|s|, i requires 0 <= i < |s| => UpperChar(s[i]))
  }

  /** A `/t/i` test for a pattern `t` made of ASCII characters: with the `i`
      flag and no `u` flag JavaScript canonicalises both sides by upper-casing,
      and never lets a non-ASCII character canonicalise onto an ASCII one, so
      matching an ASCII pattern is matching after ASCII upper-casing. */
  predicate ContainsIgnoreCase(s: string, t: string)
  {
    Contains(UpperAscii(s), UpperAscii(t))
  }

  /** An exact occurrence is also a case-insensitive one. */
  lemma ContainsImpliesIgnoreCase(s: string, t: string)
    requires Contains(s, t)
    ensures ContainsIgnoreCase(s, t)
  {
    ContainsIffOccurs(s, t);
    var i :| OccursAt(s, t, i);
    assert UpperAscii(s)[i..i + |t|] == UpperAscii(t);
    assert OccursAt(UpperAscii(s), UpperAscii(t), i);
    ContainsIffOccurs(UpperAscii(s), UpperAscii(t));
  }

  predicate IsDigit(c: char)
  {
    '0' <= c <= '9'
  }

  predicate AllDigits(s: string)
  {
    forall i :: 0 <= i < |s| ==> IsDigit(s[i])
  }

  function DigitChar(d: nat): (c: char)
    requires d < 10
    ensures IsDigit(c)
  {
    ('0' as int + d) as char
  }

  function DigitValue(c: char): (d: nat)
    requires IsDigit(c)
    ensures d < 10 && DigitChar(d) == c
  {
    c as int - '0' as int
  }

  /** `${n}` for a non-negative integer: its decimal digits, most significant
      first, without leading zeros. */
  function NatToString(n: nat): (r: string)
    ensures |r| > 0 && AllDigits(r)
    ensures |r| > 1 ==> r[0] != '0'
    ensures n < 10 <==> |r| == 1
    decreases n
  {
    if n < 10 then [DigitChar(n)] else NatToString(n / 10) + [DigitChar(n % 10)]
  }

  /** The value of a string of decimal digits. */
  function ParseNat(s: string): nat
    requires AllDigits(s)
    decreases |s|
  {
    if |s| == 0 then 0 else ParseNat(s[..|s| - 1]) * 10 + DigitValue(s[|s| - 1])
  }

  /** Reading back a rendered number gives the number. */
  lemma {:induction false} ParseNatToString(n: nat)
    ensures ParseNat(NatToString(n)) == n
    decreases n
  {
    var r := NatToString(n);
    if n >= 10 {
      ParseNatToString(n / 10);
      assert r[..|r| - 1] == NatToString(n / 10);
    }
  }

  /** Rendering is injective: two numbers with the same text are equal. */
  lemma NatToStringInjective(m: nat, n: nat)
    requires NatToString(m) == NatToString(n)
    ensures m == n
  {
    ParseNatToString(m);
    ParseNatToString(n);
  }

  /** `s.indexOf(c)`: the first position holding `c`, if any. */
  function IndexOf(s: string, c: char): (r: Option<nat>)
    ensures r.None? <==> c !in s
    ensures r.Some? ==> r.value < |s| && s[r.value] == c && c !in s[..r.value]
    decreases |s|
  {
    if |s| == 0 then None
    else if s[0] == c then Some(0)
    else match IndexOf(s[1..], c)
      case None => None
      case Some(k) => assert s[..k + 1] == [s[0]] + s[1..][..k]; Some(k + 1)
  }

  /** `${i}` for an integer of the size the model needs (JavaScript switches
      to exponent notation only from 1e21 on): a minus sign for negative
      values, then the digits of the magnitude; `-0` renders as "0". */
  function IntToString(i: int): (r: string)
    ensures |r| > 0
    ensures i < 0 <==> r[0] == '-'
  {
    if i < 0 then "-" + NatToString(-i) else NatToString(i)
  }

  /** Reads an optional minus sign followed by at least one digit. */
  function ParseInt(s: string): (r: Option<int>)
  {
    if |s| > 0 && s[0] == '-' then
      if |s| > 1 && AllDigits(s[1..]) then Some(0 - ParseNat(s[1..])) else None
    else if |s| > 0 && AllDigits(s) then Some(ParseNat(s))
    else None
  }

  /** `ParseInt` inverts `IntToString`. */
  lemma ParseIntToString(i: int)
    ensures ParseInt(IntToString(i)) == Some(i)
  {
    var s := IntToString(i);
    if i < 0 {
      var digits := NatToString(-i);
      ParseNatToString(-i);
      assert s[1..] == digits;
      assert ParseNat(s[1..]) == -i;
    } else {
      ParseNatToString(i);
      assert IsDigit(s[0]);
    }
  }
}

=== FILE: timezone.dfy ===
/** Timezone-derived tags: the fallback offset label used when the platform
    cannot name the zone, and the fixed zone-to-country table behind the
    `country` tag. */
module Timezone {
  import opened Wrappers
  import opened Text

  /** A `getTimezoneOffset()` result (minutes, positive west of UTC) that is
      a whole number of hours. */
  type WholeHourOffset = m: int | m % 60 == 0

  /** The fallback `tz` value: "UTC" followed by the hour count with its
      sign flipped; a non-positive offset gets an explicit "+". */
  function OffsetLabel(offsetMinutes: WholeHourOffset): (r: string)
    ensures |r| > 4 && r[..3] == "UTC"
    ensures r[3] == '-' <==> offsetMinutes > 0
    ensures r[3] == '+' <==> offsetMinutes <= 0
  {
    if offsetMinutes > 0 then "UTC" + IntToString(-offsetMinutes / 60)
    else "UTC+" + IntToString(-offsetMinutes / 60)
  }

  /** Reads a label of the form "UTC-<digits>" or "UTC+<digits>" back into
      the offset in minutes. */
  function ParseOffsetLabel(tzText: string): (r: Option<int>)
  {
    if |tzText| > 4 && tzText[..3] == "UTC" && tzText[3] in {'-', '+'} && AllDigits(tzText[4..]) then
      var hours: int := ParseNat(tzText[4..]);
      Some(if tzText[3] == '-' then hours * 60 else -hours * 60)
    else None
  }

  /** A label built from a sign and a digit string parses back to that
      many hours, west of UTC for '-'. */
  lemma ParseSignedLabel(sign: char, hours: nat, offsetMinutes: int)
    requires sign == '-' || sign == '+'
    requires offsetMinutes == if sign == '-' then hours * 60 else -(hours * 60)
    ensures ParseOffsetLabel("UTC" + [sign] + NatToString(hours)) == Some(offsetMinutes)
  {
    var tzText := "UTC" + [sign] + NatToString(hours);
    assert tzText[..3] == "UTC" && tzText[3] == sign;
    assert tzText[4..] == NatToString(hours);
    ParseNatToString(hours);
  }

  /** Dividing a whole-hour offset by sixty is exact. */
  lemma ExactHours(offsetMinutes: WholeHourOffset)
    ensures (-offsetMinutes / 60) * 60 == -offsetMinutes
  {
    var hours := offsetMinutes / 60;
    assert offsetMinutes == 60 * hours;
    assert -offsetMinutes == 60 * -hours;
  }

  /** The fallback label determines the offset it was made from. */
  lemma OffsetLabelRoundTrip(offsetMinutes: WholeHourOffset)
    ensures ParseOffsetLabel(OffsetLabel(offsetMinutes)) == Some(offsetMinutes)
  {
    var hours: int := -offsetMinutes / 60;
    ExactHours(offsetMinutes);
    var sign, digits := if hours < 0 then '-' else '+', if hours < 0 then -hours else hours;
    assert OffsetLabel(offsetMinutes) == "UTC" + [sign] + NatToString(digits) by {
      if hours < 0 {
        assert IntToString(hours) == "-" + NatToString(-hours);
      }
    }
    ParseSignedLabel(sign, digits, offsetMinutes);
  }

  /** Distinct whole-hour offsets get distinct labels. */
  lemma OffsetLabelInjective(m: WholeHourOffset, n: WholeHourOffset)
    requires OffsetLabel(m) == OffsetLabel(n)
    ensures m == n
  {
    OffsetLabelRoundTrip(m);
    OffsetLabelRoundTrip(n);
  }

  /** IANA zone name to country display name. */
  const Zones: map<string, string> := map[
    "Pacific/Midway" := "United States",
    "Pacific/Honolulu" := "United States",
    "America/Anchorage" := "United States",
    "America/Los_Angeles" := "United States",
    "America/Denver" := "United States",
    "America/Chicago" := "United States",
    "America/New_York" := "United States",
    "America/Toronto" := "Canada",
    "America/Mexico_City" := "Mexico",
    "America/Bogota" := "Colombia",
    "America/Caracas" := "Venezuela",
    "America/Sao_Paulo" := "Brazil",
    "Atlantic/Azores" := "Portugal",
    "Europe/London" := "United Kingdom",
    "Europe/Paris" := "France",
    "Europe/Berlin" := "Germany",
    "Europe/Rome" := "Italy",
    "Europe/Madrid" := "Spain",
    "Europe/Moscow" := "Russia",
    "Africa/Cairo" := "Egypt",
    "Africa/Johannesburg" := "South Africa",
    "Asia/Dubai" := "United Arab Emirates",
    "Asia/Kolkata" := "India",
    "Asia/Calcutta" := "India",
    "Asia/Kathmandu" := "Nepal",
    "Asia/Dhaka" := "Bangladesh",
    "Asia/Jakarta" := "Indonesia",
    "Asia/Shanghai" := "China",
    "Asia/Tokyo" := "Japan",
    "Asia/Seoul" := "South Korea",
    "Asia/Singapore" := "Singapore",
    "Asia/Hong_Kong" := "Hong Kong",
    "Australia/Sydney" := "Australia",
    "Australia/Melbourne" := "Australia",
    "Pacific/Auckland" := "New Zealand",
    "Pacific/Fiji" := "Fiji"
  ]

  /** `tzCountryMap[tz] || 'Unknown'`, where an absent `tz` is `undefined`.
      Total: every zone, listed or not, gets a country name, and the result
      is "Unknown" exactly for the zones the table does not list. */
  function Country(tz: Option<string>): (r: string)
    ensures tz.Some? && tz.value in Zones ==> r == Zones[tz.value]
    ensures r == "Unknown" <==> tz.None? || tz.value !in Zones
    ensures r != ""
  {
    if tz.Some? && tz.value in Zones && Zones[tz.value] != "" then Zones[tz.value]
    else "Unknown"
  }
}

=== FILE: track.dfy ===
/** `track`: the tag list sent for one event. It is a fixed head of seven
    tags (action, event name, timestamp, page, browser and OS, country, load
    time) followed by the client-info list with the page fields the head
    already carries filtered out. */
module Track {
  import opened Wrappers
  import opened Text
  import opened Attrs
  import opened UserAgent
  import opened Timezone
  import opened Collector

  /** The attribute names the client-info list loses before it is appended. */
  const FilteredNames: set<string> := {"j-path", "j-title", "j-referrer", "j-lt"}

  /** The names of the seven head tags, in order. */
  const TagHeadNames: seq<string> :=
    ["Action", "ev", "timestamp", "pageVisited", "browserDevice", "country", "lt"]

  /** `iso` ends in a dot, three ASCII digits and 'Z': what
      `/\.[0-9]{3}Z$/` matches, and it can only match those last five
      characters. */
  predicate MillisSuffix(iso: string)
  {
    |iso| >= 5 && iso[|iso| - 5] == '.' && IsDigit(iso[|iso| - 4]) && IsDigit(iso[|iso| - 3])
    && IsDigit(iso[|iso| - 2]) && iso[|iso| - 1] == 'Z'
  }

  /** `iso.replace(/\.[0-9]{3}Z$/, 'GMT')`. The result never ends in a
      millisecond suffix, and a string without one is left alone. */
  function RewriteTimestamp(iso: string): (r: string)
    ensures !MillisSuffix(r)
    ensures !MillisSuffix(iso) ==> r == iso
    ensures MillisSuffix(iso) ==> |r| == |iso| - 2 && r[..|iso| - 5] == iso[..|iso| - 5]
  {
    if MillisSuffix(iso) then iso[..|iso| - 5] + "GMT" else iso
  }

  /** `toISOString()` output loses exactly its milliseconds and its 'Z'. */
  lemma RewriteTimestampDropsMillis(dateTime: string, d1: char, d2: char, d3: char)
    requires IsDigit(d1) && IsDigit(d2) && IsDigit(d3)
    ensures RewriteTimestamp(dateTime + "." + [d1, d2, d3] + "Z") == dateTime + "GMT"
  {
    var iso := dateTime + "." + [d1, d2, d3] + "Z";
    assert MillisSuffix(iso);
    assert iso[..|iso| - 5] == dateTime;
  }

  lemma RewriteTimestampIdempotent(iso: string)
    ensures RewriteTimestamp(RewriteTimestamp(iso)) == RewriteTimestamp(iso)
  {
  }

  /** `performance.timing` present: the computed seconds, taken as an
      opaque string; absent: the literal '0.0s'. */
  function LoadTime(timing: Option<string>): (r: string)
    ensures timing.None? ==> r == "0.0s"
    ensures timing.Some? ==> r == timing.value
  {
    timing.GetOr("0.0s")
  }

  /** `v.charAt(0).toUpperCase() + v.slice(1)` on an ASCII label: only the
      first character may change. */
  function Capitalize(v: string): (r: string)
    ensures |r| == |v|
    ensures |v| > 0 ==> r[0] == UpperChar(v[0]) && r[1..] == v[1..]
  {
    if |v| == 0 then v else [UpperChar(v[0])] + v[1..]
  }

  /** The `browserDevice` value: the capitalised browser label, a space,
      the OS label. Each half falls back to "Unknown" on its own when its
      attribute is missing or empty; `BrowserDeviceHalves` states both
      halves. */
  function BrowserDevice(info: seq<Attr>): (r: string)
    ensures |r| >= 3
  {
    var b, o := Find(info, "browser"), Find(info, "os");
    var browser := if b.None? || b.value == "" then "Unknown" else Capitalize(b.value);
    var os := if o.None? || o.value == "" then "Unknown" else o.value;
    browser + " " + os
  }

  /** The two halves of a space-joined label can be read back from its
      ends. */
  lemma JoinHalves(left: string, right: string)
    ensures (left + " " + right)[..|left| + 1] == left + " "
    ensures (left + " " + right)[|left|..] == " " + right
    ensures left == "Unknown" ==> (left + " " + right)[..8] == "Unknown "
    ensures right == "Unknown" ==> (left + " " + right)[|left|..] == " Unknown"
  {
    assert (left + " " + right) == (left + " ") + right == left + (" " + right);
  }

  /** `clientInfo.filter(...)` with the four page-field names. Nothing with
      one of those names survives, everything else does. */
  function FilterClientInfo(info: seq<Attr>): (r: seq<Attr>)
    ensures forall i :: 0 <= i < |r| ==> r[i].name !in FilteredNames
  {
    Drop(info, FilteredNames)
  }

  /** The tag list built from a client-info list: the seven head tags,
      then the filtered list unchanged. */
  function TagList(event: string, info: seq<Attr>, pathname: string, timing: Option<string>,
                   isoNow: string): (r: seq<Attr>)
    ensures |r| == 7 + |FilterClientInfo(info)|
    ensures forall i :: 0 <= i < 7 ==> r[i].name == TagHeadNames[i]
    ensures r[1].value == event && r[3].value == pathname
    ensures r[7..] == FilterClientInfo(info)
  {
    [Attr("Action", "Track"),
     Attr("ev", event),
     Attr("timestamp", RewriteTimestamp(isoNow)),
     Attr("pageVisited", pathname),
     Attr("browserDevice", BrowserDevice(info)),
     Attr("country", Country(Find(info, "tz"))),
     Attr("lt", LoadTime(timing))]
    + FilterClientInfo(info)
  }

  /** The tag list of one `track(event, payload)` call. `payload` is
      accepted and never read. `isoNow` is `new Date().toISOString()`. */
  function Tags(event: string, payload: map<string, string>, env: Env, trackHashes: bool,
                timing: Option<string>, isoNow: string): (r: seq<Attr>)
    ensures |r| == 7 + |FilterClientInfo(ClientInfo(env, trackHashes))|
    ensures forall i :: 0 <= i < 7 ==> r[i].name == TagHeadNames[i]
    ensures r[1].value == event && r[3].value == env.pathname
  {
    TagList(event, ClientInfo(env, trackHashes), env.pathname, timing, isoNow)
  }

  /** Of the page attributes only the url survives the filter. */
  lemma FilterPageAttrs(env: Env, trackHashes: bool)
    ensures Drop(PageAttrs(env, trackHashes), FilteredNames) == [PageAttrs(env, trackHashes)[0]]
  {
    var page := PageAttrs(env, trackHashes);
    assert page[3].name in FilteredNames && page[3..][1..] == [];
    assert Drop(page[3..], FilteredNames) == [];
    assert page[2].name in FilteredNames && page[2..][1..] == page[3..];
    assert Drop(page[2..], FilteredNames) == [];
    assert page[1].name in FilteredNames && page[1..][1..] == page[2..];
    assert Drop(page[1..], FilteredNames) == [];
    assert page[0].name !in FilteredNames;
  }

  /** In a list opening with the head names and continuing with optional
      names, nothing from the browser attribute on carries a filtered name. */
  lemma RestUnfiltered(info: seq<Attr>)
    requires 8 <= |info|
    requires forall i :: 0 <= i < 8 ==> info[i].name == HeadNames[i]
    requires forall i :: 8 <= i < |info| ==> info[i].name in OptionalNames
    ensures forall i :: 0 <= i < |info[4..]| ==> info[4..][i].name !in FilteredNames
  {
    forall i | 0 <= i < |info[4..]|
      ensures info[4..][i].name !in FilteredNames
    {
      assert info[4..][i] == info[i + 4];
    }
  }

  /** Nothing after the page attributes carries a filtered name. */
  lemma FilterKeepsRest(env: Env, trackHashes: bool)
    ensures Drop(ClientInfo(env, trackHashes)[4..], FilteredNames) == ClientInfo(env, trackHashes)[4..]
  {
    var info := ClientInfo(env, trackHashes);
    RestUnfiltered(info);
    DropNoneNamed(info[4..], FilteredNames);
  }

  /** The filter takes out exactly the three page fields of the client-info
      head and leaves the url and everything after the page fields in
      place. */
  lemma FilterDropsPageFields(env: Env, trackHashes: bool)
    ensures FilterClientInfo(ClientInfo(env, trackHashes))
      == [ClientInfo(env, trackHashes)[0]] + ClientInfo(env, trackHashes)[4..]
  {
    var info, page := ClientInfo(env, trackHashes), PageAttrs(env, trackHashes);
    assert info == page + info[4..];
    FilterPageAttrs(env, trackHashes);
    FilterKeepsRest(env, trackHashes);
    DropAppend(page, info[4..], FilteredNames);
  }

  /** The head tags carry the browser and OS labels the classifiers give
      the user agent, and the country of the emitted timezone. */
  lemma TagsDerivedValues(event: string, payload: map<string, string>, env: Env, trackHashes: bool,
                          timing: Option<string>, isoNow: string)
    ensures var r := Tags(event, payload, env, trackHashes, timing, isoNow);
      && r[0].value == "Track"
      && r[2].value == RewriteTimestamp(isoNow)
      && r[4].value == Capitalize(Browser(env.userAgent)) + " " + Os(env.userAgent)
      && r[5].value == Country(ZoneOf(env.timezone))
      && r[6].value == LoadTime(timing)
      && (timing.None? ==> r[6].value == "0.0s")
      && r[7..] == [ClientInfo(env, trackHashes)[0]] + ClientInfo(env, trackHashes)[4..]
  {
    FindClassifications(env, trackHashes);
    FindTimezone(env, trackHashes);
    FilterDropsPageFields(env, trackHashes);
  }

  /** Every browser label capitalises to its display form. */
  lemma CapitalizedBrowserLabels(ua: string)
    ensures Capitalize(Browser(ua)) in {"Brave", "Chrome", "Firefox", "Safari", "Others"}
  {
    var b := Browser(ua);
    assert Capitalize(b) == [UpperChar(b[0])] + b[1..];
    if b == "brave" {
      assert Capitalize(b) == "Brave";
    } else if b == "chrome" {
      assert Capitalize(b) == "Chrome";
    } else if b == "firefox" {
      assert Capitalize(b) == "Firefox";
    } else if b == "safari" {
      assert Capitalize(b) == "Safari";
    } else {
      assert Capitalize(b) == "Others";
    }
  }

  /** Each half of `browserDevice` depends on its own attribute alone: a
      missing or empty browser value makes the label start "Unknown ", a
      missing or empty OS value makes it end " Unknown", and a present value
      appears in its place, the browser's capitalised. A single space
      separates the halves, so the length is their sum plus one. */
  lemma BrowserDeviceHalves(info: seq<Attr>)
    ensures var b, r := Find(info, "browser"), BrowserDevice(info);
      (b.None? || b.value == "") ==> |r| >= 8 && r[..8] == "Unknown "
    ensures var b, r := Find(info, "browser"), BrowserDevice(info);
      (b.Some? && b.value != "") ==> |r| > |b.value| && r[..|b.value| + 1] == Capitalize(b.value) + " "
    ensures var o, r := Find(info, "os"), BrowserDevice(info);
      (o.None? || o.value == "") ==> |r| >= 8 && r[|r| - 8..] == " Unknown"
    ensures var o, r := Find(info, "os"), BrowserDevice(info);
      (o.Some? && o.value != "") ==> |r| > |o.value| && r[|r| - |o.value| - 1..] == " " + o.value
    ensures var b, o, r := Find(info, "browser"), Find(info, "os"), BrowserDevice(info);
      |r| == (if b.None? || b.value == "" then 7 else |b.value|) + 1 + (if o.None? || o.value == "" then 7 else |o.value|)
  {
    var b, o := Find(info, "browser"), Find(info, "os");
    var browser := if b.None? || b.value == "" then "Unknown" else Capitalize(b.value);
    var os := if o.None? || o.value == "" then "Unknown" else o.value;
    assert BrowserDevice(info) == browser + " " + os;
    JoinHalves(browser, os);
  }

  /** The payload never reaches the tags. */
  lemma PayloadIgnored(event: string, p1: map<string, string>, p2: map<string, string>, env: Env,
                       trackHashes: bool, timing: Option<string>, isoNow: string)
    ensures Tags(event, p1, env, trackHashes, timing, isoNow) == Tags(event, p2, env, trackHashes, timing, isoNow)
  {
  }
}

=== FILE: useragent.dfy ===
/** The three user-agent classifiers of the client-info collector. Each is a
    chain of substring tests where the first test that succeeds decides the
    label, so a user agent that matches several rules gets the label of the
    earliest one. */
module UserAgent {
  import opened Text

  const BrowserLabels: set<string> := {"brave", "chrome", "firefox", "safari", "others"}
  const OsLabels: set<string> := {"Windows", "Mac", "iOS", "Android", "Linux", "Unknown"}
  const DeviceLabels: set<string> := {"mobile", "tablet", "desktop"}

  /** Browser family. Each label is characterised by the exact set of user
      agents that receive it, independent of the order the tests run in. */
  function Browser(ua: string): (r: string)
    ensures r in BrowserLabels
    ensures r == "brave" <==> Contains(ua, "Chrome") && Contains(ua, "Brave")
    ensures r == "chrome" <==>
      Contains(ua, "Chrome") && !Contains(ua, "Brave") && !Contains(ua, "Edg/")
    ensures r == "firefox" <==>
      Contains(ua, "Firefox") && !(Contains(ua, "Chrome") && (Contains(ua, "Brave") || !Contains(ua, "Edg/")))
    ensures r == "safari" <==>
      Contains(ua, "Safari") && !Contains(ua, "Chrome") && !Contains(ua, "Firefox")
    ensures r == "others" <==>
      !Contains(ua, "Firefox") &&
      ((!Contains(ua, "Safari") && !Contains(ua, "Chrome"))
       || (Contains(ua, "Chrome") && Contains(ua, "Edg/") && !Contains(ua, "Brave")))
  {
    if Contains(ua, "Chrome") && Contains(ua, "Brave") then "brave"
    else if Contains(ua, "Chrome") && !Contains(ua, "Edg/") then "chrome"
    else if Contains(ua, "Firefox") then "firefox"
    else if Contains(ua, "Safari") && !Contains(ua, "Chrome") then "safari"
    else "others"
  }

  /** Operating system, by the precedence Windows, Mac, iOS, Android, Linux. */
  function Os(ua: string): (r: string)
    ensures r in OsLabels
    ensures r == "Windows" <==> Contains(ua, "Windows")
    ensures r == "Mac" <==> !Contains(ua, "Windows") && Contains(ua, "Mac")
    ensures r == "iOS" <==>
      !Contains(ua, "Windows") && !Contains(ua, "Mac") && (Contains(ua, "iPhone") || Contains(ua, "iPad"))
    ensures r == "Android" <==>
      !Contains(ua, "Windows") && !Contains(ua, "Mac") && !Contains(ua, "iPhone") && !Contains(ua, "iPad")
      && Contains(ua, "Android")
    ensures r == "Linux" <==>
      !Contains(ua, "Windows") && !Contains(ua, "Mac") && !Contains(ua, "iPhone") && !Contains(ua, "iPad")
      && !Contains(ua, "Android") && Contains(ua, "Linux")
    ensures r == "Unknown" <==>
      !Contains(ua, "Windows") && !Contains(ua, "Mac") && !Contains(ua, "iPhone") && !Contains(ua, "iPad")
      && !Contains(ua, "Android") && !Contains(ua, "Linux")
  {
    if Contains(ua, "Windows") then "Windows"
    else if Contains(ua, "Mac") then "Mac"
    else if Contains(ua, "iPhone") || Contains(ua, "iPad") then "iOS"
    else if Contains(ua, "Android") then "Android"
    else if Contains(ua, "Linux") then "Linux"
    else "Unknown"
  }

  /** `/Mobile|Android|iPhone|iPod/i.test(ua)` */
  predicate MobileToken(ua: string)
  {
    ContainsIgnoreCase(ua, "Mobile") || ContainsIgnoreCase(ua, "Android")
    || ContainsIgnoreCase(ua, "iPhone") || ContainsIgnoreCase(ua, "iPod")
  }

  /** `/Tablet|iPad/i.test(ua)` */
  predicate TabletToken(ua: string)
  {
    ContainsIgnoreCase(ua, "Tablet") || ContainsIgnoreCase(ua, "iPad")
  }

  /** Device class; the mobile tokens take precedence. */
  function Device(ua: string): (r: string)
    ensures r in DeviceLabels
    ensures r == "mobile" <==> MobileToken(ua)
    ensures r == "tablet" <==> !MobileToken(ua) && TabletToken(ua)
    ensures r == "desktop" <==> !MobileToken(ua) && !TabletToken(ua)
  {
    if MobileToken(ua) then "mobile"
    else if TabletToken(ua) then "tablet"
    else "desktop"
  }

  /** Brave's user agent also names Chrome; the Brave rule comes first. */
  lemma BraveBeatsChrome(ua: string)
    requires Contains(ua, "Chrome") && Contains(ua, "Brave")
    ensures Browser(ua) == "brave" && Browser(ua) != "chrome"
  {
  }

  /** Edge names Chrome and Safari but falls through every rule. */
  lemma EdgeIsOthers(ua: string)
    requires Contains(ua, "Chrome") && Contains(ua, "Edg/")
    requires !Contains(ua, "Brave") && !Contains(ua, "Firefox")
    ensures Browser(ua) == "others"
  {
  }

  /** An iPhone user agent says "like Mac OS X", so it is classified as Mac,
      and "iOS" is reachable only for user agents that never mention "Mac". */
  lemma MacShadowsIos(ua: string)
    ensures Contains(ua, "Mac") ==> Os(ua) != "iOS"
    ensures Contains(ua, "Mac") && !Contains(ua, "Windows") ==> Os(ua) == "Mac"
  {
  }

  /** Android user agents also name Linux; Android wins. */
  lemma AndroidBeatsLinux(ua: string)
    requires Contains(ua, "Android") && Contains(ua, "Linux")
    requires !Contains(ua, "Windows") && !Contains(ua, "Mac")
    requires !Contains(ua, "iPhone") && !Contains(ua, "iPad")
    ensures Os(ua) == "Android"
  {
  }

  /** Any exact mention of a mobile token makes the device mobile, even when
      a tablet token is present too (an iPad user agent naming "Mobile"). */
  lemma MobileTokenWins(ua: string, token: string)
    requires token in {"Mobile", "Android", "iPhone", "iPod"}
    requires Contains(ua, token)
    ensures Device(ua) == "mobile"
  {
    ContainsImpliesIgnoreCase(ua, token);
  }

  /** Case does not matter to the device test: "ANDROID" is as mobile as
      "Android". */
  lemma DeviceIgnoresCase(ua: string)
    ensures Device(UpperAscii(ua)) == Device(ua)
  {
    assert UpperAscii(UpperAscii(ua)) == UpperAscii(ua);
  }
}

=== FILE: wrappers.dfy ===
/** Optional values: a JavaScript `undefined`/`null` next to a present value. */
module Wrappers {

  datatype Option<+T> = None | Some(value: T) {

    /** The value, or `default` when there is none (JavaScript's `??`). */
    function GetOr(default: T): T {
      match this
      case Some(v) => v
      case None => default
    }
  }
}
